=== FILE: README.md ===
# Voice transcription in TestTelegramBot, modelled in Dafny

The bot accepts a Telegram voice clip and saves it under `audio/{FileId}.oga`.
It takes a permit from a shared `SemaphoreSlim(1, 3)` and runs the `whisper`
command-line engine on the clip. It then scrubs the engine's standard output
and replies with the transcript, or with a fixed apology. A `finally` block
deletes the clip and two other derived paths, then releases the permit.

This project models that path as pure functions over strings, token lists, a
set of existing paths and a permit counter. It proves what each step
guarantees.

| file | module | models |
|---|---|---|
| wrappers.dfy | `Wrappers` | `Option` for a nullable C# string, `Result` for a call that may throw |
| text.dfy | `Text` | ordinal `String.Contains`, `Split('\n')`, `string.Join("\n", …)` |
| paths.dfy | `Paths` | `Path.Combine` on a Unix host |
| normalizer.dfy | `Normalizer` | `ProcessWhisperAnswer`, the `\[.*?\]` strip, `DeleteLineContainingSubstring` |
| whisper.dfy | `Whisper` | `WhisperArguments`, the argument list of `ExecuteCliCommandAsync`, exit code to result |
| job.dfy | `Job` | the semaphore counter, artifact paths, the `finally` cleanup, the reply, the whole handler |
| scrub_example.dfy | `ScrubExample` | the scrub worked through on typical engine output |

How each piece is modelled:

- **Bracket strip.** `Regex.Replace(input, @"\[.*?\]", "")` is `StripBrackets`. A `[` is deleted
  together with everything up to the first `]` after it, provided no `'\n'`
  comes first (in .NET, `.` does not match a line break). Scanning resumes
  after the deleted span. A `[` with no `]` later on its line is kept
  (`Normalizer.UnclosedBracketIsKept`).
- **Line deletion.** Lines are split and joined on `'\n'` exactly as .NET does. Empty
  pieces are kept, and joining zero lines gives `""`. Substring matching is
  ordinal and case-sensitive, and the empty string occurs in every string.
- **Engine run.** The engine run is an input: `Exited(exitCode, standardOutput)` or
  `Threw(message)`. The files the engine writes are an input set, too.
- **Semaphore.** The semaphore is a counter with a maximum. `WaitAsync` either takes a permit
  or, when none is free, leaves the job `Waiting`. `Release` throws
  `SemaphoreFull` when the count is already at the maximum.

- **Cleanup.** The file system is the set of existing paths plus a set of
  `locked` paths whose `File.Delete` throws (a file in use or read-only, or a
  directory the process may not write). A throwing deletion ends the `finally`
  block: the later deletions and `semaphore.Release()` do not run.

Behaviour of the code that the model reproduces as written:

- Diagnostic lines are matched case-sensitively, and only lines containing
  exactly `"Detecting"` or `"Detected"` are dropped.
- Every engine failure (a non-zero exit code, or an exception, including a
  failure to start the process) becomes `""`. No typed failure is produced.
  The empty result then leads to the apology.
- Nothing is trimmed. `"[00:00.000 --> 00:01.000] Hello\nDetecting language...\n"`
  scrubs to `" Hello\n"`, keeping the leading space and the final line break
  (`ScrubExample.ScrubSample`).
- The cleanup deletes `{FileId}.json` in the output directory. The engine is
  asked for format `txt`, so its transcript file `{FileId}.txt` is not
  deleted (`Job.EngineTranscriptFileSurvives`). The `.wav` path is never
  created, because the conversion step is commented out. Its deletion only
  removes a file of that name that already existed.
- "Each flag at most once" holds in flag position only. A value such as a
  model named `--language` is emitted as a value token. `Whisper.FlagValue`
  and `Whisper.ReadArguments` read the list positionally, alternating flag
  and value after the audio path, and under that reading such a value is not
  a flag (`Whisper.ReadBuildRoundTrip`).
- A cleanup that meets an artifact it cannot delete throws out of the
  handler with the permit still taken (`Job.StuckDeleteLosesPermit`). With
  `SemaphoreSlim(1, 3)` every later voice message then waits
  (`Job.BotStallsAfterStuckDelete`). See "## Findings".

## Model

| member | source | states |
|---|---|---|
| Text.Contains | TestTelegramBot/Program.cs:279 | the empty string is contained in every string, and a contained string is never longer than the text |
| Text.ContainsIffOccurs | TestTelegramBot/Program.cs:279 | the ordinal `Contains` test holds exactly when the substring occurs at some index |
| Text.Split | TestTelegramBot/Program.cs:292 | splitting on `'\n'` yields one more piece than there are line breaks, and no piece contains a line break |
| Text.JoinSplit | TestTelegramBot/Program.cs:292-294 | joining the pieces of a split with `"\n"` gives the original text back |
| Text.SplitJoin | TestTelegramBot/Program.cs:292-294 | splitting the join of a non-empty list of break-free lines gives that list back |
| Text.Join | TestTelegramBot/Program.cs:294 | joining no lines gives `""`; the result starts with the first line, followed by a line break when there are more lines |
| Normalizer.FindClose | TestTelegramBot/Program.cs:281 | the lazy `.*?\]` ends at the first `]`, with no `]` or line break before it; there is no match when a line break comes before every `]` |
| Normalizer.StripBrackets | TestTelegramBot/Program.cs:281-283 | the replacement never makes the text longer |
| Normalizer.FirstCloseIsFound | TestTelegramBot/Program.cs:281 | when the text before a `]` has no `]` and no line break, the lazy match that starts after the `[` ends at that `]` |
| Normalizer.LeadingSpanIsRemoved | TestTelegramBot/Program.cs:281-283 | a `[` closed by a `]` on the same line is deleted together with everything between them |
| Normalizer.SpanIsRemoved | TestTelegramBot/Program.cs:281-283 | text before the first `[` is kept verbatim, and a `[...]` span closed on its line is then deleted whole |
| Normalizer.UnclosedBracketIsKept | TestTelegramBot/Program.cs:281-283 | text before the first `[` is kept verbatim, and a `[` with no `]` later on its line is kept, with the strip going on after it |
| Normalizer.StripKeepsLineBreaks | TestTelegramBot/Program.cs:281-283 | the bracket strip keeps the number of line breaks |
| Normalizer.StripKeepsLineCount | TestTelegramBot/Program.cs:281-283 | the bracket strip keeps the number of lines |
| Normalizer.StripIsSubsequence | TestTelegramBot/Program.cs:281-283 | the bracket strip only deletes characters: its output is a subsequence of its input |
| Normalizer.StripWithoutBracketIsIdentity | TestTelegramBot/Program.cs:281-283 | input with no `[` comes out of the strip unchanged |
| Normalizer.StripLeavesNoBracketSpan | TestTelegramBot/Program.cs:281-283 | no line of the stripped text has a `[` followed later on that line by a `]` |
| Normalizer.KeepLines | TestTelegramBot/Program.cs:293 | every kept line is an input line not containing the substring, and the kept lines keep their original order |
| Normalizer.KeepLinesIsExact | TestTelegramBot/Program.cs:293 | the filter keeps every line not containing the substring, as often as it occurs, and no other line |
| Normalizer.DeleteLineContainingSubstring | TestTelegramBot/Program.cs:290-295 | the result is empty, or its lines are a subsequence of the input's lines |
| Normalizer.DeleteLinesAreKeptLines | TestTelegramBot/Program.cs:292-294 | the result's lines are exactly the kept lines; when no line is kept the result is `""` |
| Normalizer.DeleteWithoutMatchIsIdentity | TestTelegramBot/Program.cs:290-295 | text with no line containing the substring is returned unchanged |
| Normalizer.DeleteOnlyKeepsInputLines | TestTelegramBot/Program.cs:292-294 | every line of the result is an input line, or the result is the single empty line |
| Normalizer.DeleteRemovesAllMatches | TestTelegramBot/Program.cs:293 | for a non-empty substring, no line of the result contains it |
| Normalizer.DeleteNeverAddsLines | TestTelegramBot/Program.cs:292-294 | the result never has more lines than the input |
| Normalizer.DeleteIsIdempotent | TestTelegramBot/Program.cs:290-295 | deleting the same lines a second time changes nothing |
| Normalizer.ProcessWhisperAnswer | TestTelegramBot/Program.cs:277-289 | the result is null exactly when the raw output does not contain `"[00"` |
| Normalizer.ScrubbedHasNoBanner | TestTelegramBot/Program.cs:284-286 | no line of a non-null scrubbed result contains `"Detecting"` or `"Detected"` (case-sensitive) |
| Normalizer.ScrubbedHasNoMoreLines | TestTelegramBot/Program.cs:281-286 | a scrubbed result never has more lines than the raw output |
| ScrubExample.ScrubTimestampedLine | TestTelegramBot/Program.cs:277-289 | a timestamped line followed by a detection banner scrubs to the line's text plus a final line break, untrimmed |
| ScrubExample.ScrubSample | TestTelegramBot/Program.cs:277-289 | the typical engine output scrubs to `" Hello\n"` |
| ScrubExample.UnmarkedOutputIsRejected | TestTelegramBot/Program.cs:279-288 | output without any `[` is rejected as null |
| Paths.Combine | TestTelegramBot/Program.cs:207-212 | a combined path ends with its second part, which stands alone when it is rooted or the first part is empty; an empty second part gives the first part; otherwise the result begins with the first part |
| Paths.CombineKeepsFileName | TestTelegramBot/Program.cs:210-212 | combining a directory with a plain file name gives a path whose last component is that name |
| Whisper.DefaultArguments | TestTelegramBot/WhisperWrapper.cs:84-91 | the defaults are model `small`, format `txt`, language `en`, an empty prompt and the `whisper` directory under the working directory |
| Whisper.BotArguments | TestTelegramBot/Program.cs:29-32 | the bot's arguments are the defaults with an empty language, so no language is passed |
| Whisper.AppendOptional | TestTelegramBot/WhisperWrapper.cs:43-52 | a flag and its value are appended as one pair exactly when the value is non-null and non-empty, and the flag joins the flag names |
| Whisper.BuildArguments | TestTelegramBot/WhisperWrapper.cs:33-52 | the list starts with the audio path and the model, output-directory and output-format pairs; `--language` and then `--initial_prompt` are added only for non-null, non-empty values; the length is 7, 9 or 11 |
| Whisper.BuildArgumentsHasDistinctFlags | TestTelegramBot/WhisperWrapper.cs:33-52 | no flag name appears twice in flag position |
| Whisper.ReadBuildRoundTrip | TestTelegramBot/WhisperWrapper.cs:33-52 | reading the list back recovers the audio path, model, directory and format, plus the language and prompt exactly when they are non-empty |
| Whisper.BotInvocationHasSevenTokens | TestTelegramBot/Program.cs:29-32 | with the bot's empty language, the invocation has no `--language` pair and exactly 7 tokens |
| Whisper.CommandResult | TestTelegramBot/WhisperWrapper.cs:64-81 | exit code 0 yields the standard output; a non-empty result implies exit code 0, so any other exit code or an exception yields `""` |
| Job.Acquire | TestTelegramBot/Program.cs:242 | a permit is taken exactly when one is free, lowering the count by one |
| Job.Release | TestTelegramBot/Program.cs:273 | a release raises the count by one, and throws exactly when that would exceed the maximum |
| Job.ReleaseUndoesAcquire | TestTelegramBot/Program.cs:242-273 | on a consistent semaphore, releasing after an acquire never throws and restores the count |
| Job.ArtifactPaths | TestTelegramBot/Program.cs:207-212 | the clip and wav paths lie under `{cwd}/audio` and the response path under the output directory, named `{FileId}.oga`, `.wav` and `.json`; the three paths are distinct |
| Job.DeleteIfExists | TestTelegramBot/Program.cs:267-268 | a guarded delete throws exactly when the path exists and cannot be deleted; otherwise the path is absent afterwards and every other path is untouched |
| Job.DeleteArtifacts | TestTelegramBot/Program.cs:265-272 | the three deletions complete exactly when every existing artifact can be deleted, and then remove exactly the artifacts; otherwise they throw at the first existing undeletable artifact in the order clip, wav, json, having removed only the artifacts before it |
| Job.CleanupRemovesExactlyArtifacts | TestTelegramBot/Program.cs:265-272 | when every existing artifact can be deleted, after cleanup none of the three paths exists and every other path is unchanged |
| Job.CleanupIsIdempotent | TestTelegramBot/Program.cs:265-272 | when every existing artifact can be deleted, running the deletions twice is the same as running them once |
| Job.Finally | TestTelegramBot/Program.cs:265-274 | the `finally` block completes exactly when every existing artifact can be deleted and the semaphore is not full; a throw leaves the permit taken; a failed deletion names an existing undeletable artifact |
| Job.GuardedDelete | TestTelegramBot/Program.cs:267-268 | a guarded delete whose `File.Delete` throws leaves the path in place; otherwise the path is gone; no other path changes |
| Job.GuardedDeleteArtifacts | TestTelegramBot/Program.cs:265-272 | the three guarded deletions in order remove exactly the artifacts that can be deleted |
| Job.GuardedFinally | TestTelegramBot/Program.cs:265-274 | corrected cleanup, each deletion guarded on its own: undeletable files stay, every other artifact is deleted, and the permit is returned unless the semaphore is full |
| Job.GuardedCleanupRestoresPermit | TestTelegramBot/Program.cs:242-274 | with the corrected cleanup a job returns its permit whatever cannot be deleted |
| Job.GuardedFinallyAgrees | TestTelegramBot/Program.cs:265-274 | when every existing artifact can be deleted, the corrected cleanup and the cleanup as written agree |
| Job.DecideReply | TestTelegramBot/Program.cs:248-259 | the transcript is sent exactly when the scrubbed text is non-null and non-empty; otherwise the apology is sent |
| Job.ReplyText | TestTelegramBot/Program.cs:250-258 | the message text is the transcript or the fixed apology, and it is empty only for an empty transcript |
| Job.SentTextIsNeverEmpty | TestTelegramBot/Program.cs:248-258 | the text sent is never empty: it is the apology or the non-empty scrubbed transcript |
| Job.EmptyResultGetsApology | TestTelegramBot/Program.cs:248-259 | an empty engine result always leads to the apology |
| Job.FailedRunGetsApology | TestTelegramBot/Program.cs:247-259 | a non-zero exit code or an exception always leads to the apology |
| Job.SentTranscriptHasNoBanner | TestTelegramBot/Program.cs:248-251 | a transcript that is sent has no language-detection line |
| Job.TryFinally | TestTelegramBot/Program.cs:243-274 | holding a permit, the block runs the engine on the clip path and decides the reply from the scrubbed result; it faults exactly when an existing artifact cannot be deleted or the semaphore is full, and then keeps the permit; only artifacts are removed, all of them when they can be |
| Job.SpeechRecognitionVoiceMessage | TestTelegramBot/Program.cs:201-276 | a message without voice is ignored; a job waits exactly when no permit is free; a job that ran sends the transcript exactly when the scrubbed engine result is non-null and non-empty |
| Job.JobRestoresPermit | TestTelegramBot/Program.cs:242-273 | on a consistent semaphore, a job whose artifacts can all be deleted never faults and leaves the permit count as it was before the acquire |
| Job.StuckDeleteLosesPermit | TestTelegramBot/Program.cs:242-274 | a job holding a permit whose cleanup meets an undeletable artifact faults with one permit fewer than before |
| Job.BotStallsAfterStuckDelete | TestTelegramBot/Program.cs:242-274 | with `SemaphoreSlim(1, 3)`, after a clip that cannot be deleted the next voice message waits |
| Job.JobRemovesArtifacts | TestTelegramBot/Program.cs:265-272 | when every artifact can be deleted, after the handler the clip, wav and json paths are absent, and every other path exists exactly when it existed before or the engine wrote it |
| Job.JobRunsEngineOnClip | TestTelegramBot/Program.cs:245-247 | a job that ran invoked the engine with the downloaded clip's path as the first token |
| Job.EngineTranscriptFileSurvives | TestTelegramBot/Program.cs:212 | the engine's `{FileId}.txt` output is still present after the job, whether or not the cleanup throws |
| Job.TranscriptIsNoArtifact | TestTelegramBot/Program.cs:207-212 | `{FileId}.txt` in the output directory is none of the three artifact paths |
| Job.OtherPathSurvives | TestTelegramBot/Program.cs:265-272 | a path that is not an artifact survives the job |
| Job.BotJobRestoresGate | TestTelegramBot/Program.cs:27 | with the bot's `SemaphoreSlim(1, 3)` and arguments, a voice job whose artifacts can all be deleted finishes with the permit back and runs a 7-token command line |

## Left out

- Telegram client setup, polling, update routing, `SendMessage` and `JannaPhrase` (TestTelegramBot/Program.cs:76-199): network and UI glue. Phrase selection also uses `Random` and configuration.
- Sending the reply: `SendTextMessageAsync` is network I/O. The model returns the decided `Reply`. A send that throws is caught and logged at Program.cs:261-264, and the model does not represent that.
- Blocking, fairness and cancellation of `SemaphoreSlim`: concurrency. The semaphore is a sequential counter, and a job with no free permit is reported as `Waiting`.
- Process spawning (`Cli.Wrap`, `ExecuteBufferedAsync`) and creation of the output and audio directories: process and file-system I/O. The process outcome is an input.
- The clip download and stream flush (Program.cs:219-224): I/O. The model adds the clip's path to the existing paths.
- Logging and configuration loading (Program.cs:36-74): not part of the transcription logic.
- TestTelegramBot/AudioConvertorOgg.cs and TestTelegramBot/AudioConvertorVorbis.cs: codec wrappers that are never called, because their calls are commented out.
- TestTelegramBot/WhisperWeb.cs: an HTTP client outside the command-line path.
- The `PrependPunctuation` and `AppendPunctuation` properties of `WhisperArguments`: they are never read, because their use is commented out.
- Job.CleanupIsIdempotent: covers the deletions only, and only when every existing artifact can be deleted. `Release` is not idempotent: a second release would add a permit, or throw on a full semaphore.
- Paths.Combine: models Unix `Path.Combine` only, not Windows drive or separator rules.
- Whisper.BuildArgumentsHasDistinctFlags: distinctness is stated for flag positions only. A value token may equal a flag name, and then that name appears twice among all tokens.
- The engine's own option parser: a value that looks like an option (a model named `--language`, a prompt such as `-x`) may be read as a flag there. `Whisper.FlagValue` is a positional reading of the token list, not that parser.
- A clip that cannot be written: the download happens before `WaitAsync`, so its failure takes no permit. The model does not represent it.
- Job.JobRestoresPermit: stated only for jobs whose existing artifacts can all be deleted. A cleanup that throws keeps the permit (`Job.StuckDeleteLosesPermit`).
- Job.JobRemovesArtifacts: stated only for jobs whose existing artifacts can all be deleted. A cleanup that throws leaves the later artifacts in place.
- Job.BotJobRestoresGate: stated only for jobs whose existing artifacts can all be deleted. Otherwise the job faults (`Job.BotStallsAfterStuckDelete`).
- Job.CleanupRemovesExactlyArtifacts: stated only when every existing artifact can be deleted. `Job.DeleteArtifacts` states what a throwing cleanup leaves.
- Job.SpeechRecognitionVoiceMessage: models one job at a time. Interleaving of concurrent jobs is not modelled. This includes two jobs writing the shared `AudioFileName`.

## Findings

| source | as written | input that shows it | evidently intended | confidence | as-written member | corrected member |
|---|---|---|---|---|---|---|
| TestTelegramBot/Program.cs:265-274 | three `File.Delete` calls and `semaphore.Release()` in one `finally` block, with nothing guarding the deletions | the downloaded clip exists but is locked, so the first `File.Delete` throws | the permit is returned even when a file cannot be deleted | not executed | Job.StuckDeleteLosesPermit | Job.GuardedCleanupRestoresPermit |

=== FILE: job.dfy ===
/** One voice message handled end to end, sequentially
    (`SpeechRecognitionVoiceMessage` in TestTelegramBot/Program.cs): artifact
    paths, the permit of the shared semaphore, the engine run, the reply
    decision, and the `finally` block that deletes artifacts and releases the
    permit. The file system is the set of paths that exist together with the
    paths that cannot be deleted; downloading, running the engine and sending
    messages are inputs or outputs. */
module Job {
  import opened Wrappers
  import opened Text
  import Paths
  import opened Normalizer
  import opened Whisper

  // ---------------------------------------------------------------------------
  // The semaphore, as a sequential permit counter
  // ---------------------------------------------------------------------------

  /** A `SemaphoreSlim` reduced to its current count and its maximum count. */
  datatype Gate = Gate(count: int, maxCount: int)

  /** What `SemaphoreSlim` itself maintains. */
  predicate ValidGate(g: Gate)
  {
    0 <= g.count <= g.maxCount && 0 < g.maxCount
  }

  /** `new SemaphoreSlim(1, 3)`: one permit free, at most three. */
  const BotGate: Gate := Gate(1, 3)

  /** `WaitAsync()`: takes a free permit; `None` when none is free, in which
      case the caller waits (waiting itself is not modelled). */
  function Acquire(g: Gate): (r: Option<Gate>)
    ensures r.Some? <==> g.count > 0
    ensures r.Some? ==> r.value.maxCount == g.maxCount && r.value.count == g.count - 1
  {
    if g.count > 0 then Some(Gate(g.count - 1, g.maxCount)) else None
  }

  /** The exception `Release()` throws when the count is already at its maximum. */
  datatype SemaphoreFull = SemaphoreFull

  /** `Release()`: returns one permit, or throws when that would exceed the
      maximum count. */
  function Release(g: Gate): (r: Result<Gate, SemaphoreFull>)
    ensures r.Failure? <==> g.count + 1 > g.maxCount
    ensures r.Success? ==> r.value.maxCount == g.maxCount && r.value.count == g.count + 1
  {
    if g.count + 1 > g.maxCount then Failure(SemaphoreFull) else Success(Gate(g.count + 1, g.maxCount))
  }

  /** A release after an acquire restores the gate and never throws. */
  lemma ReleaseUndoesAcquire(g: Gate)
    requires ValidGate(g) && g.count > 0
    ensures Acquire(g).Some? && ValidGate(Acquire(g).value)
    ensures Release(Acquire(g).value) == Success(g)
  {
  }

  // ---------------------------------------------------------------------------
  // Artifacts and the cleanup in `finally`
  // ---------------------------------------------------------------------------

  /** The three paths the handler derives from the voice file id: the
      downloaded voice clip and the (never produced) wav under
      `{cwd}/audio`, and a `.json` response in the engine's output directory. */
  datatype Artifacts = Artifacts(voice: string, wav: string, response: string)

  function ArtifactPaths(cwd: string, outputDirectory: string, fileId: string): (a: Artifacts)
    ensures a.voice == Paths.Combine(Paths.Combine(cwd, "audio"), fileId + ".oga")
    ensures a.wav == Paths.Combine(Paths.Combine(cwd, "audio"), fileId + ".wav")
    ensures a.response == Paths.Combine(outputDirectory, fileId + ".json")
    ensures a.voice != a.wav && a.wav != a.response && a.voice != a.response
  {
    var audioDirectory := Paths.Combine(cwd, "audio");
    Paths.CombineEndsLikeSecond(audioDirectory, fileId + ".oga");
    Paths.CombineEndsLikeSecond(audioDirectory, fileId + ".wav");
    Paths.CombineEndsLikeSecond(outputDirectory, fileId + ".json");
    Artifacts(Paths.Combine(audioDirectory, fileId + ".oga"),
              Paths.Combine(audioDirectory, fileId + ".wav"),
              Paths.Combine(outputDirectory, fileId + ".json"))
  }

  function ArtifactSet(a: Artifacts): set<string>
  {
    {a.voice, a.wav, a.response}
  }

  /** `if (File.Exists(p)) File.Delete(p);`. The paths in `locked` exist but
      cannot be deleted (the file is in use or read-only, or its directory is
      not writable): `File.Delete` throws for them, and the exception carries
      the path. */
  function DeleteIfExists(existing: set<string>, locked: set<string>, p: string): (r: Result<set<string>, string>)
    ensures r.Failure? <==> p in existing && p in locked
    ensures r.Failure? ==> r.error == p
    ensures r.Success? ==> p !in r.value
    ensures r.Success? ==> forall q :: q != p ==> (q in r.value <==> q in existing)
  {
    if p !in existing then Success(existing)
    else if p in locked then Failure(p)
    else Success(existing - {p})
  }

  /** Every artifact that exists can be deleted. */
  predicate CleanupCanRun(existing: set<string>, locked: set<string>, a: Artifacts)
  {
    existing * locked * ArtifactSet(a) == {}
  }

  /** A deletion that threw: the paths that existed at that moment, and the
      path whose deletion failed. */
  datatype Stuck = Stuck(files: set<string>, path: string)

  /** The three guarded deletions of the `finally` block, in order. A throwing
      deletion ends the sequence: later artifacts are not attempted. */
  function DeleteArtifacts(existing: set<string>, locked: set<string>, a: Artifacts): (r: Result<set<string>, Stuck>)
    ensures r.Success? <==> CleanupCanRun(existing, locked, a)
    ensures r.Success? ==> r.value == existing - ArtifactSet(a)
    ensures r.Failure? ==> r.error.path in existing * locked * ArtifactSet(a) && r.error.path in r.error.files
    ensures r.Failure? ==> r.error.files <= existing && existing - r.error.files <= ArtifactSet(a) - {r.error.path}
    ensures a.voice in existing * locked ==> r == Failure(Stuck(existing, a.voice))
    ensures a.voice !in existing * locked && a.wav in existing * locked ==>
              r == Failure(Stuck(existing - {a.voice}, a.wav))
    ensures a.voice !in existing * locked && a.wav !in existing * locked && a.response in existing * locked ==>
              r == Failure(Stuck(existing - {a.voice, a.wav}, a.response))
  {
    match DeleteIfExists(existing, locked, a.voice)
    case Failure(p) =>
      assert a.voice in existing * locked * ArtifactSet(a);
      Failure(Stuck(existing, p))
    case Success(afterVoice) =>
      match DeleteIfExists(afterVoice, locked, a.wav)
      case Failure(p) =>
        assert a.wav in existing * locked * ArtifactSet(a);
        assert afterVoice == existing - {a.voice};
        Failure(Stuck(afterVoice, p))
      case Success(afterWav) =>
        match DeleteIfExists(afterWav, locked, a.response)
        case Failure(p) =>
          assert a.response in existing * locked * ArtifactSet(a);
          assert afterWav == existing - {a.voice, a.wav};
          Failure(Stuck(afterWav, p))
        case Success(afterResponse) => Success(afterResponse)
  }

  /** After a cleanup that completes, no artifact exists and every other path
      is as before. */
  lemma CleanupRemovesExactlyArtifacts(existing: set<string>, locked: set<string>, a: Artifacts)
    requires CleanupCanRun(existing, locked, a)
    ensures DeleteArtifacts(existing, locked, a).Success?
    ensures a.voice !in DeleteArtifacts(existing, locked, a).value
    ensures a.wav !in DeleteArtifacts(existing, locked, a).value
    ensures a.response !in DeleteArtifacts(existing, locked, a).value
    ensures forall p :: p != a.voice && p != a.wav && p != a.response ==>
              (p in DeleteArtifacts(existing, locked, a).value <==> p in existing)
  {
  }

  /** Cleaning up twice is the same as cleaning up once. */
  lemma CleanupIsIdempotent(existing: set<string>, locked: set<string>, a: Artifacts)
    requires CleanupCanRun(existing, locked, a)
    ensures var once := DeleteArtifacts(existing, locked, a);
            once.Success? && DeleteArtifacts(once.value, locked, a) == once
  {
  }

  /** The whole `finally` block: the deletions, then `semaphore.Release()`. */
  datatype Cleaned = Cleaned(files: set<string>, gate: Gate)

  /** What made the `finally` block throw. */
  datatype Cause = CannotDelete(path: string) | SemaphoreOverflow

  /** The state a throwing `finally` block leaves behind. */
  datatype Escaped = Escaped(files: set<string>, gate: Gate, cause: Cause)

  /** As written: a throwing deletion skips the remaining deletions and
      `Release`, so the permit stays taken. */
  function Finally(existing: set<string>, locked: set<string>, held: Gate, a: Artifacts): (r: Result<Cleaned, Escaped>)
    ensures r.Success? <==> CleanupCanRun(existing, locked, a) && held.count + 1 <= held.maxCount
    ensures r.Success? ==> r.value.files == existing - ArtifactSet(a)
    ensures r.Success? ==> r.value.gate.count == held.count + 1 && r.value.gate.maxCount == held.maxCount
    ensures r.Failure? ==> r.error.gate == held
    ensures r.Failure? ==> (r.error.cause.CannotDelete? <==> !CleanupCanRun(existing, locked, a))
    ensures r.Failure? && r.error.cause.CannotDelete? ==>
              r.error.cause.path in existing * locked * ArtifactSet(a)
    ensures r.Failure? && r.error.cause.SemaphoreOverflow? ==> r.error.files == existing - ArtifactSet(a)
    ensures r.Failure? ==> r.error.files <= existing && existing - r.error.files <= ArtifactSet(a)
  {
    match DeleteArtifacts(existing, locked, a)
    case Failure(stuck) => Failure(Escaped(stuck.files, held, CannotDelete(stuck.path)))
    case Success(files) =>
      match Release(held)
      case Success(g) => Success(Cleaned(files, g))
      case Failure(_) => Failure(Escaped(files, held, SemaphoreOverflow))
  }

  /** `try { if (File.Exists(p)) File.Delete(p); } catch { }`: a deletion
      that throws leaves the path in place and the cleanup goes on. */
  function GuardedDelete(existing: set<string>, locked: set<string>, p: string): (r: set<string>)
    ensures p in r <==> p in existing && p in locked
    ensures forall q :: q != p ==> (q in r <==> q in existing)
  {
    match DeleteIfExists(existing, locked, p)
    case Success(files) => files
    case Failure(_) => existing
  }

  /** The three guarded deletions in order: every artifact that can be
      deleted is gone, and nothing else changes. */
  function GuardedDeleteArtifacts(existing: set<string>, locked: set<string>, a: Artifacts): (r: set<string>)
    ensures r == existing - (ArtifactSet(a) - locked)
  {
    GuardedDelete(GuardedDelete(GuardedDelete(existing, locked, a.voice), locked, a.wav), locked, a.response)
  }

  /** Corrected cleanup: each deletion is guarded on its own, so a file that
      cannot be deleted is left in place and the permit is still returned. */
  function GuardedFinally(existing: set<string>, locked: set<string>, held: Gate, a: Artifacts): (r: Result<Cleaned, SemaphoreFull>)
    ensures r.Failure? <==> held.count + 1 > held.maxCount
    ensures r.Success? ==> r.value.files == existing - (ArtifactSet(a) - locked)
    ensures r.Success? ==> r.value.gate.count == held.count + 1 && r.value.gate.maxCount == held.maxCount
  {
    var files := GuardedDeleteArtifacts(existing, locked, a);
    match Release(held)
    case Success(g) => Success(Cleaned(files, g))
    case Failure(e) => Failure(e)
  }

  /** With the corrected cleanup a job returns its permit whatever the file
      system refuses to delete. */
  lemma GuardedCleanupRestoresPermit(existing: set<string>, locked: set<string>, g: Gate, a: Artifacts)
    requires ValidGate(g) && g.count > 0
    ensures GuardedFinally(existing, locked, Acquire(g).value, a) ==
            Success(Cleaned(existing - (ArtifactSet(a) - locked), g))
  {
  }

  /** When every artifact can be deleted, the corrected cleanup behaves
      exactly as the cleanup as written. */
  lemma GuardedFinallyAgrees(existing: set<string>, locked: set<string>, held: Gate, a: Artifacts)
    requires CleanupCanRun(existing, locked, a) && held.count + 1 <= held.maxCount
    ensures Finally(existing, locked, held, a).Success?
    ensures GuardedFinally(existing, locked, held, a) == Success(Finally(existing, locked, held, a).value)
  {
    forall p | p in existing && p in ArtifactSet(a)
      ensures p !in locked
    {
      assert p !in existing * locked * ArtifactSet(a);
    }
    assert existing - (ArtifactSet(a) - locked) == existing - ArtifactSet(a);
  }

  // ---------------------------------------------------------------------------
  // The reply
  // ---------------------------------------------------------------------------

  /** The fixed apology sent when nothing usable was recognised. */
  const ApologyText: string := "Unfortunately, I can't recognize speech in this voice message"

  datatype Reply = Transcript(text: string) | Apology

  /** The text of the message that is sent for a reply. */
  function ReplyText(r: Reply): (t: string)
    ensures r.Apology? ==> t == ApologyText
    ensures r.Transcript? ==> t == r.text
    ensures t != [] <==> r.Apology? || r.text != []
  {
    match r
    case Transcript(text) => text
    case Apology => ApologyText
  }

  /** The bot never sends an empty message: either the non-empty transcript
      or the apology. */
  lemma SentTextIsNeverEmpty(processed: Option<string>)
    ensures ReplyText(DecideReply(processed)) != []
    ensures ReplyText(DecideReply(processed)) == ApologyText || processed == Some(ReplyText(DecideReply(processed)))
  {
  }

  /** `!string.IsNullOrEmpty(processedResponse)` decides between sending the
      scrubbed text and the apology. */
  function DecideReply(processed: Option<string>): (r: Reply)
    ensures r.Transcript? <==> processed.Some? && processed.value != []
    ensures r.Transcript? ==> r.text == processed.value
  {
    match processed
    case Some(text) => if text != [] then Transcript(text) else Apology
    case None => Apology
  }

  /** An empty engine result always leads to the apology. */
  lemma EmptyResultGetsApology()
    ensures DecideReply(ProcessWhisperAnswer([])) == Apology
  {
    assert !Contains([], TimestampMarker);
  }

  /** A failed or crashed engine run always leads to the apology. */
  lemma FailedRunGetsApology(o: ProcessOutcome)
    requires !(o.Exited? && o.exitCode == 0)
    ensures DecideReply(ProcessWhisperAnswer(CommandResult(o))) == Apology
  {
    EmptyResultGetsApology();
  }

  /** A transcript that is sent never shows a language-detection line. */
  lemma SentTranscriptHasNoBanner(stdout: string)
    requires DecideReply(ProcessWhisperAnswer(stdout)).Transcript?
    ensures forall l :: l in Split(DecideReply(ProcessWhisperAnswer(stdout)).text) ==>
              !Contains(l, DetectingBanner) && !Contains(l, DetectedBanner)
  {
    ScrubbedHasNoBanner(stdout);
  }

  // ---------------------------------------------------------------------------
  // The handler
  // ---------------------------------------------------------------------------

  /** The state shared between messages: the existing paths, the paths that
      exist but cannot be deleted, and the semaphore. */
  datatype JobState = JobState(files: set<string>, locked: set<string>, gate: Gate)

  /** How far one message gets. A job that ran has sent its reply inside the
      `try` block whether or not its `finally` block then throws. */
  datatype JobStep =
    | Ignored                      // the message carries no voice clip
    | Waiting(files: set<string>)  // clip downloaded, no permit free: WaitAsync blocks
    | Finished(commandLine: seq<string>, reply: Reply, files: set<string>, gate: Gate)
    | Faulted(commandLine: seq<string>, reply: Reply, files: set<string>, gate: Gate, cause: Cause)
      // the finally block threw out of the handler

  /** The `try`/`finally` block, entered holding a permit: the engine runs on
      the clip, the reply is decided, then the artifacts are deleted from
      `existing` and the permit is returned. */
  function TryFinally(held: Gate, existing: set<string>, locked: set<string>, a: Artifacts,
                      args: WhisperArguments, outcome: ProcessOutcome): (r: JobStep)
    ensures r.Finished? || r.Faulted?
    ensures r.Faulted? <==> !CleanupCanRun(existing, locked, a) || held.count + 1 > held.maxCount
    ensures r.Faulted? ==> r.gate == held
    ensures r.Finished? ==> r.gate.count == held.count + 1 && r.gate.maxCount == held.maxCount
    ensures CleanupCanRun(existing, locked, a) ==> r.files == existing - ArtifactSet(a)
    ensures forall p :: p !in ArtifactSet(a) ==> (p in r.files <==> p in existing)
    ensures r.files <= existing
    ensures |r.commandLine| >= 7 && r.commandLine[0] == a.voice
    ensures r.reply == DecideReply(ProcessWhisperAnswer(CommandResult(outcome)))
  {
    var commandLine := BuildArguments(args.(audioFileName := a.voice));
    var reply := DecideReply(ProcessWhisperAnswer(CommandResult(outcome)));
    match Finally(existing, locked, held, a)
    case Success(c) => Finished(commandLine, reply, c.files, c.gate)
    case Failure(e) => Faulted(commandLine, reply, e.files, e.gate, e.cause)
  }

  /** The paths that exist when the `finally` block starts: those that existed
      before, the downloaded clip, and what the engine wrote. */
  function BeforeCleanup(s: JobState, a: Artifacts, engineWrites: set<string>): set<string>
  {
    s.files + {a.voice} + engineWrites
  }

  /** One message. `voice` is the clip's file id (`None` for a message
      without voice), `args` the shared `WhisperArguments`, `engineWrites`
      the files the engine creates, `outcome` how the run ended. */
  function SpeechRecognitionVoiceMessage(s: JobState, voice: Option<string>, cwd: string,
                                         args: WhisperArguments, engineWrites: set<string>,
                                         outcome: ProcessOutcome): (r: JobStep)
    ensures r.Ignored? <==> voice.None?
    ensures r.Waiting? <==> voice.Some? && s.gate.count <= 0
    ensures r.Finished? || r.Faulted? ==>
              (r.reply.Transcript? <==> ProcessWhisperAnswer(CommandResult(outcome)).Some?
                                        && ProcessWhisperAnswer(CommandResult(outcome)).value != [])
  {
    match voice
    case None => Ignored
    case Some(fileId) =>
      var a := ArtifactPaths(cwd, args.outputDirectory, fileId);
      match Acquire(s.gate)
      case None => Waiting(s.files + {a.voice})
      case Some(held) => TryFinally(held, BeforeCleanup(s, a, engineWrites), s.locked, a, args, outcome)
  }

  /** On a consistent semaphore, a job whose artifacts can all be deleted
      never faults, and when it finishes the permit count is as it was
      before `WaitAsync`. */
  lemma JobRestoresPermit(s: JobState, fileId: string, cwd: string,
                          args: WhisperArguments, engineWrites: set<string>, outcome: ProcessOutcome)
    requires ValidGate(s.gate)
    requires CleanupCanRun(BeforeCleanup(s, ArtifactPaths(cwd, args.outputDirectory, fileId), engineWrites),
                           s.locked, ArtifactPaths(cwd, args.outputDirectory, fileId))
    ensures var r := SpeechRecognitionVoiceMessage(s, Some(fileId), cwd, args, engineWrites, outcome);
            !r.Faulted? && (r.Finished? ==> r.gate == s.gate)
  {
    if s.gate.count > 0 {
      var a := ArtifactPaths(cwd, args.outputDirectory, fileId);
      var held := Acquire(s.gate).value;
      var r := TryFinally(held, BeforeCleanup(s, a, engineWrites), s.locked, a, args, outcome);
      assert r.Finished?;
      assert r.gate == Gate(s.gate.count, s.gate.maxCount);
    }
  }

  /** As written, a job holding a permit whose cleanup meets an existing
      artifact it cannot delete throws out of the handler without returning
      its permit. */
  lemma StuckDeleteLosesPermit(s: JobState, fileId: string, cwd: string,
                               args: WhisperArguments, engineWrites: set<string>, outcome: ProcessOutcome)
    requires ValidGate(s.gate) && s.gate.count > 0
    requires !CleanupCanRun(BeforeCleanup(s, ArtifactPaths(cwd, args.outputDirectory, fileId), engineWrites),
                            s.locked, ArtifactPaths(cwd, args.outputDirectory, fileId))
    ensures var r := SpeechRecognitionVoiceMessage(s, Some(fileId), cwd, args, engineWrites, outcome);
            r.Faulted? && r.cause.CannotDelete? && r.gate == Gate(s.gate.count - 1, s.gate.maxCount)
  {
  }

  /** With the bot's `SemaphoreSlim(1, 3)`, once a clip cannot be deleted the
      only permit is gone and every later voice message waits. */
  lemma BotStallsAfterStuckDelete(files: set<string>, fileId: string, cwd: string,
                                  engineWrites: set<string>, outcome: ProcessOutcome,
                                  nextVoice: string, nextWrites: set<string>, nextOutcome: ProcessOutcome)
    ensures var r := SpeechRecognitionVoiceMessage(
              JobState(files, {ArtifactPaths(cwd, BotArguments(cwd, []).outputDirectory, fileId).voice}, BotGate),
              Some(fileId), cwd, BotArguments(cwd, []), engineWrites, outcome);
            r.Faulted? && r.gate == Gate(0, 3)
            && SpeechRecognitionVoiceMessage(JobState(r.files, {}, r.gate), Some(nextVoice), cwd,
                                             BotArguments(cwd, []), nextWrites, nextOutcome).Waiting?
  {
    var a := ArtifactPaths(cwd, BotArguments(cwd, []).outputDirectory, fileId);
    var s := JobState(files, {a.voice}, BotGate);
    assert a.voice in BeforeCleanup(s, a, engineWrites) * s.locked * ArtifactSet(a);
    StuckDeleteLosesPermit(s, fileId, cwd, BotArguments(cwd, []), engineWrites, outcome);
  }

  /** Once a job whose artifacts can all be deleted has run its `finally`
      block, none of the three artifacts exists and every other path exists
      exactly when it existed before or the engine wrote it. */
  lemma JobRemovesArtifacts(s: JobState, fileId: string, cwd: string,
                            args: WhisperArguments, engineWrites: set<string>, outcome: ProcessOutcome)
    requires CleanupCanRun(BeforeCleanup(s, ArtifactPaths(cwd, args.outputDirectory, fileId), engineWrites),
                           s.locked, ArtifactPaths(cwd, args.outputDirectory, fileId))
    ensures var r := SpeechRecognitionVoiceMessage(s, Some(fileId), cwd, args, engineWrites, outcome);
            var a := ArtifactPaths(cwd, args.outputDirectory, fileId);
            r.Finished? || r.Faulted? ==>
              && a.voice !in r.files && a.wav !in r.files && a.response !in r.files
              && forall p :: p !in ArtifactSet(a) ==> (p in r.files <==> p in s.files || p in engineWrites)
  {
    var a := ArtifactPaths(cwd, args.outputDirectory, fileId);
    var r := SpeechRecognitionVoiceMessage(s, Some(fileId), cwd, args, engineWrites, outcome);
    if r.Finished? || r.Faulted? {
      assert r.files == BeforeCleanup(s, a, engineWrites) - ArtifactSet(a);
    }
  }

  /** A job that ran invoked the engine on the downloaded clip. */
  lemma JobRunsEngineOnClip(s: JobState, fileId: string, cwd: string,
                            args: WhisperArguments, engineWrites: set<string>, outcome: ProcessOutcome)
    ensures var r := SpeechRecognitionVoiceMessage(s, Some(fileId), cwd, args, engineWrites, outcome);
            r.Finished? || r.Faulted? ==>
              |r.commandLine| >= 7 && r.commandLine[0] == ArtifactPaths(cwd, args.outputDirectory, fileId).voice
  {
  }

  /** The engine writes its transcript as `{FileId}.txt` in the output
      directory, but the cleanup deletes `{FileId}.json`: the transcript file
      is left behind, whether or not the cleanup throws. */
  lemma EngineTranscriptFileSurvives(s: JobState, fileId: string, cwd: string,
                                     args: WhisperArguments, outcome: ProcessOutcome)
    requires s.gate.count > 0
    requires args.outputFormat == "txt"
    ensures var txt := Paths.Combine(args.outputDirectory, fileId + ".txt");
            var r := SpeechRecognitionVoiceMessage(s, Some(fileId), cwd, args, {txt}, outcome);
            (r.Finished? || r.Faulted?) && txt in r.files
  {
    var txt := Paths.Combine(args.outputDirectory, fileId + ".txt");
    var a := ArtifactPaths(cwd, args.outputDirectory, fileId);
    TranscriptIsNoArtifact(cwd, args.outputDirectory, fileId);
    OtherPathSurvives(Acquire(s.gate).value, BeforeCleanup(s, a, {txt}), s.locked, a, args, outcome, txt);
  }

  /** A path that is not an artifact is never touched by the job. */
  lemma OtherPathSurvives(held: Gate, existing: set<string>, locked: set<string>, a: Artifacts,
                          args: WhisperArguments, outcome: ProcessOutcome, p: string)
    requires p in existing && p != a.voice && p != a.wav && p != a.response
    ensures p in TryFinally(held, existing, locked, a, args, outcome).files
  {
    assert p !in ArtifactSet(a);
  }

  /** `{FileId}.txt` is none of the three artifact paths: its last character
      differs from theirs. */
  lemma TranscriptIsNoArtifact(cwd: string, outputDirectory: string, fileId: string)
    ensures var a := ArtifactPaths(cwd, outputDirectory, fileId);
            var txt := Paths.Combine(outputDirectory, fileId + ".txt");
            txt != a.voice && txt != a.wav && txt != a.response
  {
    var a := ArtifactPaths(cwd, outputDirectory, fileId);
    var txt := Paths.Combine(outputDirectory, fileId + ".txt");
    assert txt != a.voice by {
      CombinedNamesDiffer(outputDirectory, Paths.Combine(cwd, "audio"), fileId, ".txt", ".oga");
    }
    assert txt != a.wav by {
      CombinedNamesDiffer(outputDirectory, Paths.Combine(cwd, "audio"), fileId, ".txt", ".wav");
    }
    assert txt != a.response by {
      CombinedNamesDiffer(outputDirectory, outputDirectory, fileId, ".txt", ".json");
    }
  }

  /** Two combined paths whose extensions end in different characters differ. */
  lemma CombinedNamesDiffer(dir1: string, dir2: string, name: string, ext1: string, ext2: string)
    requires ext1 != [] && ext2 != [] && ext1[|ext1| - 1] != ext2[|ext2| - 1]
    ensures Paths.Combine(dir1, name + ext1) != Paths.Combine(dir2, name + ext2)
  {
    Paths.CombineEndsLikeSecond(dir1, name + ext1);
    Paths.CombineEndsLikeSecond(dir2, name + ext2);
    assert (name + ext1)[|name + ext1| - 1] == ext1[|ext1| - 1];
    assert (name + ext2)[|name + ext2| - 1] == ext2[|ext2| - 1];
  }

  /** With the bot's own gate and arguments, a voice message whose artifacts
      can all be deleted runs the engine with seven tokens and leaves the
      gate as it found it. */
  lemma BotJobRestoresGate(files: set<string>, locked: set<string>, fileId: string, cwd: string,
                           engineWrites: set<string>, outcome: ProcessOutcome)
    requires CleanupCanRun(BeforeCleanup(JobState(files, locked, BotGate),
                                         ArtifactPaths(cwd, BotArguments(cwd, []).outputDirectory, fileId),
                                         engineWrites),
                           locked, ArtifactPaths(cwd, BotArguments(cwd, []).outputDirectory, fileId))
    ensures var r := SpeechRecognitionVoiceMessage(JobState(files, locked, BotGate), Some(fileId), cwd,
                                                   BotArguments(cwd, []), engineWrites, outcome);
            r.Finished? && r.gate == BotGate && |r.commandLine| == 7
  {
    var a := ArtifactPaths(cwd, BotArguments(cwd, []).outputDirectory, fileId);
    BotInvocationHasSevenTokens(cwd, a.voice);
    JobRestoresPermit(JobState(files, locked, BotGate), fileId, cwd, BotArguments(cwd, []), engineWrites, outcome);
  }
}

=== FILE: normalizer.dfy ===
/** The scrubbing of the speech engine's standard output before it is sent
    back to the user (`ProcessWhisperAnswer` and `DeleteLineContainingSubstring`
    in TestTelegramBot/Program.cs). */
module Normalizer {
  import opened Wrappers
  import opened Text

  /** The text whose presence marks engine output as transcript-shaped. */
  const TimestampMarker: string := "[00"
  /** The two language-detection banners whose lines are dropped, in order. */
  const DetectingBanner: string := "Detecting"
  const DetectedBanner: string := "Detected"

  // ---------------------------------------------------------------------------
  // Bracket strip: Regex.Replace(input, @"\[.*?\]", "")
  // ---------------------------------------------------------------------------

  /** Where a lazy `.*?\]` that starts at the front of `t` ends: the index of the
      first `]`, provided no `'\n'` comes before it (`.` does not match a line
      break); `None` when the line ends first. */
  function FindClose(t: string): (r: Option<nat>)
    ensures r.Some? ==> r.value < |t| && t[r.value] == ']'
    ensures r.Some? ==> forall k :: 0 <= k < r.value ==> t[k] != ']' && t[k] != NewLine
    ensures r.None? ==> forall k :: 0 <= k < |t| && t[k] == ']' ==> NewLine in t[..k]
  {
    if t == [] then None
    else if t[0] == ']' then Some(0)
    else if t[0] == NewLine then None
    else
      match FindClose(t[1..])
      case None =>
        assert forall k :: 1 <= k < |t| ==> t[1..][..k - 1] == t[1..k];
        None
      case Some(j) => Some(j + 1)
  }

  /** `Regex.Replace(s, @"\[.*?\]", "")`: scanning left to right, a `[` that
      is closed by a `]` on the same line is deleted together with everything
      up to and including that first `]`; scanning resumes after the match.
      A `[` with no `]` later on its line is kept and scanning moves on by one
      character. */
  function StripBrackets(s: string): (r: string)
    ensures |r| <= |s|
    decreases |s|
  {
    if s == [] then []
    else if s[0] == '[' && FindClose(s[1..]).Some? then
      StripBrackets(s[FindClose(s[1..]).value + 2..])
    else [s[0]] + StripBrackets(s[1..])
  }

  /** A leading `[…]` span on one line is removed as a whole. */
  lemma {:induction false} LeadingSpanIsRemoved(stamp: string, rest: string)
    requires ']' !in stamp && NewLine !in stamp
    ensures StripBrackets("[" + stamp + "]" + rest) == StripBrackets(rest)
  {
    var s := "[" + stamp + "]" + rest;
    assert s[1..] == stamp + "]" + rest;
    FirstCloseIsFound(stamp, rest);
    assert s[|stamp| + 2..] == rest;
  }

  /** The lazy `.*?\]` stops at the first `]` of its line. */
  lemma {:induction false} FirstCloseIsFound(stamp: string, rest: string)
    requires ']' !in stamp && NewLine !in stamp
    ensures FindClose(stamp + "]" + rest) == Some(|stamp|)
  {
    if stamp != [] {
      assert (stamp + "]" + rest)[1..] == stamp[1..] + "]" + rest;
      assert stamp == [stamp[0]] + stamp[1..];
      FirstCloseIsFound(stamp[1..], rest);
    }
  }

  /** Text before the first `[` is kept verbatim, and a `[…]` span closed on
      its own line is then removed as a whole. */
  lemma {:induction false} SpanIsRemoved(before: string, stamp: string, rest: string)
    requires '[' !in before && ']' !in stamp && NewLine !in stamp
    ensures StripBrackets(before + ("[" + stamp + "]" + rest)) == before + StripBrackets(rest)
  {
    if before == [] {
      assert before + ("[" + stamp + "]" + rest) == "[" + stamp + "]" + rest;
      LeadingSpanIsRemoved(stamp, rest);
    } else {
      var s := before + ("[" + stamp + "]" + rest);
      assert s[0] == before[0] && s[1..] == before[1..] + ("[" + stamp + "]" + rest);
      assert '[' !in before[1..];
      SpanIsRemoved(before[1..], stamp, rest);
      assert before == [before[0]] + before[1..];
    }
  }

  /** Text before the first `[` is kept verbatim, and a `[` that is not closed
      on its line is kept too: the replacement only removes matches. */
  lemma {:induction false} UnclosedBracketIsKept(before: string, t: string)
    requires '[' !in before && FindClose(t).None?
    ensures StripBrackets(before + ("[" + t)) == before + "[" + StripBrackets(t)
    decreases |before|
  {
    if before == [] {
      assert before + ("[" + t) == "[" + t;
      assert ("[" + t)[1..] == t;
    } else {
      var s := before + ("[" + t);
      assert s[0] == before[0] && s[1..] == before[1..] + ("[" + t);
      assert '[' !in before[1..];
      UnclosedBracketIsKept(before[1..], t);
      assert before == [before[0]] + before[1..];
    }
  }

  /** No line of `r` holds a `[` followed later on the same line by a `]`. */
  predicate NoBracketSpan(r: string)
  {
    forall i, j :: 0 <= i < j < |r| && r[i] == '[' && r[j] == ']' ==> NewLine in r[i + 1..j]
  }

  /** A span deleted by the strip holds no line break. */
  lemma SpanHasNoLineBreak(s: string)
    requires |s| > 0 && s[0] == '[' && FindClose(s[1..]).Some?
    ensures NewLine !in s[..FindClose(s[1..]).value + 2]
  {
    var j := FindClose(s[1..]).value;
    forall k | 0 <= k < j + 2
      ensures s[k] != NewLine
    {
      if 1 <= k <= j { assert s[k] == s[1..][k - 1]; }
    }
  }

  /** The strip neither removes nor inserts line breaks. */
  lemma {:induction false} StripKeepsLineBreaks(s: string)
    ensures Count(StripBrackets(s), NewLine) == Count(s, NewLine)
    decreases |s|
  {
    if s == [] {
    } else if s[0] == '[' && FindClose(s[1..]).Some? {
      var k := FindClose(s[1..]).value + 2;
      SpanHasNoLineBreak(s);
      CountDropPrefix(s, k, NewLine);
      StripKeepsLineBreaks(s[k..]);
      assert StripBrackets(s) == StripBrackets(s[k..]);
    } else {
      StripKeepsLineBreaks(s[1..]);
      CountCons(s[0], StripBrackets(s[1..]), NewLine);
      assert StripBrackets(s) == [s[0]] + StripBrackets(s[1..]);
      assert Count(s, NewLine) == (if s[0] == NewLine then 1 else 0) + Count(s[1..], NewLine);
    }
  }

  /** The strip keeps the number of lines. */
  lemma StripKeepsLineCount(s: string)
    ensures |Split(StripBrackets(s))| == |Split(s)|
  {
    StripKeepsLineBreaks(s);
  }

  /** The strip only deletes characters. */
  lemma {:induction false} StripIsSubsequence(s: string)
    ensures IsSubsequence(StripBrackets(s), s)
    decreases |s|
  {
    if s == [] {
    } else if s[0] == '[' && FindClose(s[1..]).Some? {
      var j := FindClose(s[1..]).value;
      StripIsSubsequence(s[j + 2..]);
      SubsequenceOfSuffix(StripBrackets(s), s, j + 2);
    } else {
      StripIsSubsequence(s[1..]);
      var r := StripBrackets(s);
      assert r[0] == s[0] && r[1..] == StripBrackets(s[1..]);
    }
  }

  /** Text without an opening bracket passes through the strip unchanged. */
  lemma {:induction false} StripWithoutBracketIsIdentity(s: string)
    requires '[' !in s
    ensures StripBrackets(s) == s
    decreases |s|
  {
    if s != [] {
      assert '[' !in s[1..] by { assert forall k :: 0 <= k < |s[1..]| ==> s[1..][k] == s[k + 1]; }
      StripWithoutBracketIsIdentity(s[1..]);
      assert [s[0]] + s[1..] == s;
    }
  }

  /** If the current line of `t` has no `]`, neither has the current line of
      its strip. */
  lemma {:induction false} StripKeepsLineUnclosed(t: string)
    requires FindClose(t).None?
    ensures FindClose(StripBrackets(t)).None?
    decreases |t|
  {
    if t != [] && t[0] != NewLine {
      assert FindClose(t[1..]).None?;
      StripKeepsLineUnclosed(t[1..]);
      var r := StripBrackets(t);
      assert r[1..] == StripBrackets(t[1..]);
    }
  }

  /** Putting a character in front of a text keeps it free of bracket spans,
      provided an opening bracket is not closed later on its line. */
  lemma ConsKeepsNoBracketSpan(c: char, rest: string)
    requires NoBracketSpan(rest)
    requires c == '[' ==> FindClose(rest).None?
    ensures NoBracketSpan([c] + rest)
  {
    var r := [c] + rest;
    forall i, j | 0 <= i < j < |r| && r[i] == '[' && r[j] == ']'
      ensures NewLine in r[i + 1..j]
    {
      if i == 0 {
        FrontPairHasLineBreak(c, rest, j);
      } else {
        LaterPairHasLineBreak(c, rest, i, j);
      }
    }
  }

  /** The front `[` of `[c] + rest` is not closed on its line. */
  lemma FrontPairHasLineBreak(c: char, rest: string, j: int)
    requires FindClose(rest).None? && 0 < j <= |rest| && rest[j - 1] == ']'
    ensures NewLine in ([c] + rest)[1..j]
  {
    UnclosedBeforeClose(rest, j - 1);
    LineBreakShifts(c, rest, 0, j - 1);
  }

  /** A later bracket pair of `[c] + rest` is a pair of `rest`. */
  lemma LaterPairHasLineBreak(c: char, rest: string, i: int, j: int)
    requires NoBracketSpan(rest) && 0 < i < j <= |rest| && rest[i - 1] == '[' && rest[j - 1] == ']'
    ensures NewLine in ([c] + rest)[i + 1..j]
  {
    InnerSpanHasLineBreak(rest, i - 1, j - 1);
    LineBreakShifts(c, rest, i, j - 1);
  }

  /** A line break in `rest[i..j]` is one in `([c] + rest)[i + 1..j + 1]`. */
  lemma LineBreakShifts(c: char, rest: string, i: int, j: int)
    requires 0 <= i <= j <= |rest| && NewLine in rest[i..j]
    ensures NewLine in ([c] + rest)[i + 1..j + 1]
  {
    assert ([c] + rest)[i + 1..j + 1] == rest[i..j];
  }

  /** When the text has no closing bracket before a line break, every `]`
      has a line break before it. */
  lemma UnclosedBeforeClose(t: string, j: int)
    requires FindClose(t).None? && 0 <= j < |t| && t[j] == ']'
    ensures NewLine in t[..j]
  {
  }

  /** One bracket pair of a text without bracket spans. */
  lemma InnerSpanHasLineBreak(t: string, i: int, j: int)
    requires NoBracketSpan(t) && 0 <= i < j < |t| && t[i] == '[' && t[j] == ']'
    ensures NewLine in t[i + 1..j]
  {
  }

  /** The strip leaves no bracket pair on any line. */
  lemma {:induction false} StripLeavesNoBracketSpan(s: string)
    ensures NoBracketSpan(StripBrackets(s))
    decreases |s|
  {
    if s == [] {
    } else if s[0] == '[' && FindClose(s[1..]).Some? {
      StripLeavesNoBracketSpan(s[FindClose(s[1..]).value + 2..]);
    } else {
      StripLeavesNoBracketSpan(s[1..]);
      if s[0] == '[' {
        StripKeepsLineUnclosed(s[1..]);
      }
      ConsKeepsNoBracketSpan(s[0], StripBrackets(s[1..]));
    }
  }

  // ---------------------------------------------------------------------------
  // Line deletion: DeleteLineContainingSubstring
  // ---------------------------------------------------------------------------

  /** `lines.Where(line => !line.Contains(sub))`: the lines that do not
      contain `sub`, in their original order. */
  function KeepLines(lines: seq<string>, sub: string): (kept: seq<string>)
    ensures IsSubsequence(kept, lines)
    ensures forall k :: 0 <= k < |kept| ==> kept[k] in lines && !Contains(kept[k], sub)
  {
    if lines == [] then []
    else
      var rest := KeepLines(lines[1..], sub);
      if Contains(lines[0], sub) then rest
      else
        assert ([lines[0]] + rest)[1..] == rest;
        [lines[0]] + rest
  }

  /** The filter keeps every line that does not contain `sub`, as often as it
      occurs, and no other line. */
  lemma {:induction false} KeepLinesIsExact(lines: seq<string>, sub: string)
    ensures forall l :: multiset(KeepLines(lines, sub))[l] == (if Contains(l, sub) then 0 else multiset(lines)[l])
  {
    if lines != [] {
      KeepLinesIsExact(lines[1..], sub);
      assert lines == [lines[0]] + lines[1..];
    }
  }

  /** Removes every line of `text` that contains `sub`, splitting and joining
      on `'\n'`. */
  function DeleteLineContainingSubstring(text: string, sub: string): (r: string)
    ensures r == [] || IsSubsequence(Split(r), Split(text))
  {
    var kept := KeepLines(Split(text), sub);
    if kept == [] then Join(kept)
    else
      SplitJoin(kept);
      Join(kept)
  }

  /** When every line passes the filter, the filter keeps them all. */
  lemma {:induction false} KeepLinesKeepsAll(lines: seq<string>, sub: string)
    requires forall k :: 0 <= k < |lines| ==> !Contains(lines[k], sub)
    ensures KeepLines(lines, sub) == lines
  {
    if lines != [] {
      KeepLinesKeepsAll(lines[1..], sub);
      assert [lines[0]] + lines[1..] == lines;
    }
  }

  /** The lines of the result are exactly the kept lines of the input, or the
      result is empty when no line was kept. */
  lemma DeleteLinesAreKeptLines(text: string, sub: string)
    ensures var kept := KeepLines(Split(text), sub);
            if kept == [] then DeleteLineContainingSubstring(text, sub) == []
            else Split(DeleteLineContainingSubstring(text, sub)) == kept
  {
    var kept := KeepLines(Split(text), sub);
    if kept != [] {
      SplitJoin(kept);
    }
  }

  /** Text with no line containing `sub` is returned unchanged. */
  lemma DeleteWithoutMatchIsIdentity(text: string, sub: string)
    requires forall k :: 0 <= k < |Split(text)| ==> !Contains(Split(text)[k], sub)
    ensures DeleteLineContainingSubstring(text, sub) == text
  {
    KeepLinesKeepsAll(Split(text), sub);
    JoinSplit(text);
  }

  /** Every line of the result is a line of the input, or the result is the
      single empty line. */
  lemma DeleteOnlyKeepsInputLines(text: string, sub: string)
    ensures forall l :: l in Split(DeleteLineContainingSubstring(text, sub)) ==> l in Split(text) || l == []
  {
    DeleteLinesAreKeptLines(text, sub);
  }

  /** No remaining line contains a non-empty `sub`. */
  lemma DeleteRemovesAllMatches(text: string, sub: string)
    requires sub != []
    ensures forall l :: l in Split(DeleteLineContainingSubstring(text, sub)) ==> !Contains(l, sub)
  {
    DeleteLinesAreKeptLines(text, sub);
    assert !Contains([], sub);
  }

  /** The deletion never adds lines. */
  lemma DeleteNeverAddsLines(text: string, sub: string)
    ensures |Split(DeleteLineContainingSubstring(text, sub))| <= |Split(text)|
  {
    DeleteLinesAreKeptLines(text, sub);
    var kept := KeepLines(Split(text), sub);
    SubsequenceLength(kept, Split(text));
  }

  /** Deleting the same lines twice is the same as deleting them once. */
  lemma DeleteIsIdempotent(text: string, sub: string)
    ensures DeleteLineContainingSubstring(DeleteLineContainingSubstring(text, sub), sub)
            == DeleteLineContainingSubstring(text, sub)
  {
    var r := DeleteLineContainingSubstring(text, sub);
    DeleteLinesAreKeptLines(text, sub);
    var kept := KeepLines(Split(text), sub);
    if kept != [] {
      KeepLinesKeepsAll(kept, sub);
    } else {
      assert Split(r) == [[]];
    }
  }

  // ---------------------------------------------------------------------------
  // ProcessWhisperAnswer
  // ---------------------------------------------------------------------------

  /** Scrubs raw engine output: `None` (C# `null`) unless it contains the
      timestamp marker; otherwise bracket spans are stripped and the
      language-detection lines are dropped. Nothing is trimmed. */
  function ProcessWhisperAnswer(input: string): (r: Option<string>)
    ensures r.None? <==> !Contains(input, TimestampMarker)
  {
    if Contains(input, TimestampMarker) then
      var stripped := StripBrackets(input);
      Some(DeleteLineContainingSubstring(DeleteLineContainingSubstring(stripped, DetectingBanner), DetectedBanner))
    else None
  }

  /** A scrubbed transcript has no line mentioning either banner (ordinal,
      case-sensitive match). */
  lemma ScrubbedHasNoBanner(input: string)
    requires ProcessWhisperAnswer(input).Some?
    ensures forall l :: l in Split(ProcessWhisperAnswer(input).value) ==>
              !Contains(l, DetectingBanner) && !Contains(l, DetectedBanner)
  {
    var a := StripBrackets(input);
    var b := DeleteLineContainingSubstring(a, DetectingBanner);
    DeleteRemovesAllMatches(a, DetectingBanner);
    DeleteRemovesAllMatches(b, DetectedBanner);
    DeleteOnlyKeepsInputLines(b, DetectedBanner);
    assert !Contains([], DetectingBanner);
  }

  /** Scrubbing never produces more lines than the engine printed. */
  lemma ScrubbedHasNoMoreLines(input: string)
    requires ProcessWhisperAnswer(input).Some?
    ensures |Split(ProcessWhisperAnswer(input).value)| <= |Split(input)|
  {
    var a := StripBrackets(input);
    var b := DeleteLineContainingSubstring(a, DetectingBanner);
    StripKeepsLineCount(input);
    DeleteNeverAddsLines(a, DetectingBanner);
    DeleteNeverAddsLines(b, DetectedBanner);
  }
}

=== FILE: paths.dfy ===
/** `Path.Combine` on a Unix host, as used to build the artifact paths. */
module Paths {

  const Separator: char := '/'

  /** `Path.Combine(a, b)`: `b` itself when it is rooted or `a` is empty;
      `a` itself when `b` is empty; otherwise `a` and `b` joined by exactly one added separator (none when
      `a` already ends in one). */
  function Combine(a: string, b: string): (r: string)
    ensures |r| >= |b| && r[|r| - |b|..] == b
    ensures b != [] && b[0] == Separator ==> r == b
    ensures a == [] ==> r == b
    ensures b == [] ==> r == a
    ensures a != [] && (b == [] || b[0] != Separator) ==> |r| >= |a| && r[..|a|] == a
  {
    if a == [] || (b != [] && b[0] == Separator) then b
    else if b == [] then a
    else if a[|a| - 1] == Separator then a + b
    else a + [Separator] + b
  }

  /** A combined path ends in the same character as a non-empty second part. */
  lemma CombineEndsLikeSecond(a: string, b: string)
    requires b != []
    ensures |Combine(a, b)| > 0 && Combine(a, b)[|Combine(a, b)| - 1] == b[|b| - 1]
  {
    var r := Combine(a, b);
    assert r[|r| - |b|..][|b| - 1] == r[|r| - 1];
  }

  /** The last component of a path: everything after its last separator. */
  function FileName(p: string): (f: string)
    ensures Separator !in f
    ensures |f| <= |p| && p[|p| - |f|..] == f
    ensures |f| < |p| ==> p[|p| - |f| - 1] == Separator
    decreases |p|
  {
    if p == [] || p[|p| - 1] == Separator then []
    else
      var init := p[..|p| - 1];
      var f := FileName(init);
      assert p[|p| - |f| - 1..] == init[|init| - |f|..] + [p[|p| - 1]];
      assert |f| < |init| ==> p[|p| - |f| - 2] == init[|init| - |f| - 1];
      f + [p[|p| - 1]]
  }

  /** A separator-free name after a separator (or alone) is the file name. */
  lemma {:induction false} FileNameOfSuffix(x: string, b: string)
    requires Separator !in b
    requires x == [] || x[|x| - 1] == Separator
    ensures FileName(x + b) == b
    decreases |b|
  {
    if b != [] {
      var init := b[..|b| - 1];
      var c := b[|b| - 1];
      var p := x + b;
      assert p[|p| - 1] == c && c != Separator;
      assert p[..|p| - 1] == x + init;
      assert Separator !in init;
      FileNameOfSuffix(x, init);
      assert FileName(p) == FileName(x + init) + [c];
      assert b == init + [c];
    } else {
      assert x + b == x;
    }
  }

  /** Combining a directory with a plain file name keeps that name as the
      last component of the result. */
  lemma CombineKeepsFileName(a: string, b: string)
    requires b != [] && Separator !in b
    ensures FileName(Combine(a, b)) == b
  {
    if a == [] {
      FileNameOfSuffix([], b);
    } else if a[|a| - 1] == Separator {
      FileNameOfSuffix(a, b);
    } else {
      FileNameOfSuffix(a + [Separator], b);
    }
  }
}

=== FILE: scrub_example.dfy ===
/** A worked run of the scrubber on typical engine output: the timestamp is
    removed, the detection banner line is dropped, and neither the leading
    space nor the trailing empty line is trimmed. */
module ScrubExample {
  import opened Wrappers
  import opened Text
  import opened Normalizer

  /** A short line cannot contain a longer string. */
  lemma ShortLineLacks(l: string, sub: string)
    requires |l| < |sub|
    ensures !Contains(l, sub)
  {
    ContainsIffOccurs(l, sub);
  }

  /** "text\nbanner\n" splits into the two lines and a final empty one. */
  lemma SplitTwoLines(text: string, banner: string)
    requires NewLine !in text && NewLine !in banner
    ensures Split(text + [NewLine] + banner + [NewLine]) == [text, banner, []]
  {
    assert text + [NewLine] + banner + [NewLine] == text + [NewLine] + (banner + [NewLine] + []);
    SplitAfterLine(text, banner + [NewLine] + []);
    SplitAfterLine(banner, []);
    SplitLine([]);
  }

  /** Of the lines text, banner and the empty line, the filter keeps the first
      and the last. */
  lemma KeepAllButBanner(text: string, banner: string, sub: string)
    requires sub != [] && !Contains(text, sub) && Contains(banner, sub)
    ensures KeepLines([text, banner, []], sub) == [text, []]
  {
    ShortLineLacks([], sub);
    var lines: seq<string> := [text, banner, []];
    assert lines[1..] == [banner, []];
    assert lines[1..][1..] == [[]];
    assert KeepLines([[]], sub) == [[]];
  }

  /** Deleting the lines with `sub` from "text\nbanner\n" drops the banner
      line and keeps the empty last line. */
  lemma BannerLineDropped(text: string, banner: string, sub: string)
    requires sub != []
    requires NewLine !in text && !Contains(text, sub)
    requires NewLine !in banner && Contains(banner, sub)
    ensures DeleteLineContainingSubstring(text + [NewLine] + banner + [NewLine], sub) == text + [NewLine]
  {
    SplitTwoLines(text, banner);
    KeepAllButBanner(text, banner, sub);
    assert Join([text, []]) == text + [NewLine] + Join([[]]);
  }

  /** A line without `sub`, followed by a line break, is left alone. */
  lemma {:induction false} CleanLineKept(text: string, sub: string)
    requires sub != []
    requires NewLine !in text && !Contains(text, sub)
    ensures DeleteLineContainingSubstring(text + [NewLine], sub) == text + [NewLine]
  {
    assert text + [NewLine] == text + [NewLine] + [];
    SplitAfterLine(text, []);
    SplitLine([]);
    ShortLineLacks([], sub);
    DeleteWithoutMatchIsIdentity(text + [NewLine], sub);
  }

  /** One timestamped transcript line followed by a language-detection
      banner: the span and the banner line go, the text keeps its leading
      characters, and the trailing empty line survives the join. */
  lemma {:induction false} ScrubTimestampedLine(stamp: string, text: string, banner: string)
    requires |stamp| >= 2 && stamp[0] == '0' && stamp[1] == '0'
    requires ']' !in stamp && NewLine !in stamp
    requires '[' !in text && NewLine !in text
    requires !Contains(text, DetectingBanner) && !Contains(text, DetectedBanner)
    requires '[' !in banner && NewLine !in banner && Contains(banner, DetectingBanner)
    ensures ProcessWhisperAnswer("[" + stamp + "]" + text + [NewLine] + banner + [NewLine])
            == Some(text + [NewLine])
  {
    var rest := text + [NewLine] + banner + [NewLine];
    var input := "[" + stamp + "]" + rest;
    assert input == "[" + stamp + "]" + text + [NewLine] + banner + [NewLine];
    assert input[..3] == TimestampMarker;
    assert TimestampMarker <= input;
    LeadingSpanIsRemoved(stamp, rest);
    assert '[' !in rest;
    StripWithoutBracketIsIdentity(rest);
    BannerLineDropped(text, banner, DetectingBanner);
    CleanLineKept(text, DetectedBanner);
  }

  /** The typical engine output "[00:00.000 --> 00:01.000] Hello\nDetecting
      language...\n" scrubs to " Hello\n": the space after the timestamp and
      the final line break are kept. The three pieces of the sample come in as
      parameters pinned by the `requires`: written as literals inside the
      statement, they would let the solver unfold the scrubber on constant
      strings without bound. */
  lemma ScrubSample(stamp: string, text: string, banner: string)
    requires stamp == "00:00.000 --> 00:01.000"
    requires text == " Hello" && banner == "Detecting language..."
    ensures ProcessWhisperAnswer("[" + stamp + "]" + text + [NewLine] + banner + [NewLine])
            == Some(text + [NewLine])
    ensures text + [NewLine] == " Hello\n"
  {
    ShortLineLacks(text, DetectingBanner);
    ShortLineLacks(text, DetectedBanner);
    assert banner[..|DetectingBanner|] == DetectingBanner;
    assert DetectingBanner <= banner;
    ScrubTimestampedLine(stamp, text, banner);
  }

  /** A string containing a non-empty `sub` contains its first character. */
  lemma {:induction false} ContainsFirstChar(s: string, sub: string)
    requires sub != [] && Contains(s, sub)
    ensures sub[0] in s
    decreases |s|
  {
    if !(sub <= s) {
      ContainsFirstChar(s[1..], sub);
    }
  }

  /** Output without any `[` is rejected, however much it reads like speech. */
  lemma UnmarkedOutputIsRejected(s: string)
    requires '[' !in s
    ensures ProcessWhisperAnswer(s) == None
  {
    if Contains(s, TimestampMarker) {
      ContainsFirstChar(s, TimestampMarker);
    }
  }
}

=== FILE: text.dfy ===
/** The .NET string operations the transcript scrubber relies on:
    ordinal `String.Contains`, `String.Split('\n')` and `String.Join("\n", …)`. */
module Text {

  /** The line separator used by both `Split` and `Join`. */
  const NewLine: char := '\n'

  /** Ordinal, case-sensitive substring test (`s.Contains(sub)`); the empty
      string occurs in every string. */
  predicate Contains(s: string, sub: string): (b: bool)
    ensures sub == [] ==> b
    ensures b ==> |sub| <= |s|
    decreases |s|
  {
    sub <= s || (|s| > 0 && Contains(s[1..], sub))
  }

  /** `sub` occurs in `s` starting at index `i`. */
  predicate OccursAt(s: string, sub: string, i: int)
  {
    0 <= i <= |s| - |sub| && s[i..i + |sub|] == sub
  }

  /** An occurrence past the front of `s` is an occurrence in its tail. */
  lemma OccursInTail(s: string, sub: string, i: int)
    requires |s| > 0 && i > 0
    ensures OccursAt(s, sub, i) <==> OccursAt(s[1..], sub, i - 1)
  {
    if 0 <= i <= |s| - |sub| {
      var t := s[1..];
      assert t[i - 1..i - 1 + |sub|] == s[i..i + |sub|];
    }
  }

  /** `Contains` agrees with the positional reading of "substring". */
  lemma {:induction false} ContainsIffOccurs(s: string, sub: string)
    ensures Contains(s, sub) <==> exists i :: OccursAt(s, sub, i)
    decreases |s|
  {
    if sub <= s {
      assert OccursAt(s, sub, 0);
    } else if |s| > 0 {
      ContainsIffOccurs(s[1..], sub);
      if Contains(s[1..], sub) {
        var i :| OccursAt(s[1..], sub, i);
        OccursInTail(s, sub, i + 1);
      } else {
        forall i | OccursAt(s, sub, i)
          ensures false
        {
          if i > 0 {
            OccursInTail(s, sub, i);
          }
        }
      }
    } else {
      forall i | OccursAt(s, sub, i)
        ensures false
      {
      }
    }
  }

  /** Number of occurrences of `c` in `s`. */
  function Count(s: string, c: char): (n: nat)
    ensures n <= |s|
  {
    if s == [] then 0
    else (if s[0] == c then 1 else 0) + Count(s[1..], c)
  }

  /** Dropping a prefix that holds no `c` keeps the count of `c`. */
  lemma {:induction false} CountDropPrefix(s: string, k: nat, c: char)
    requires k <= |s|
    requires c !in s[..k]
    ensures Count(s[k..], c) == Count(s, c)
    decreases k
  {
    if k > 0 {
      assert s[0] == s[..k][0];
      assert s[1..][..k - 1] == s[1..k];
      assert s[1..][k - 1..] == s[k..];
      CountDropPrefix(s[1..], k - 1, c);
    }
  }

  /** Count distributes over a single leading character. */
  lemma CountCons(x: char, s: string, c: char)
    ensures Count([x] + s, c) == (if x == c then 1 else 0) + Count(s, c)
  {
    assert ([x] + s)[1..] == s;
  }

  /** `text.Split('\n')`: the maximal runs of non-separator characters,
      including empty runs at either end and between adjacent separators. */
  function Split(s: string): (lines: seq<string>)
    ensures |lines| == Count(s, NewLine) + 1
    ensures forall k :: 0 <= k < |lines| ==> NewLine !in lines[k]
  {
    if s == [] then [[]]
    else if s[0] == NewLine then [[]] + Split(s[1..])
    else
      var rest := Split(s[1..]);
      [[s[0]] + rest[0]] + rest[1..]
  }

  /** `string.Join("\n", lines)`: an empty sequence joins to the empty string. */
  function Join(lines: seq<string>): (r: string)
    ensures |lines| == 0 ==> r == []
    ensures |lines| > 0 ==> lines[0] <= r
    ensures |lines| > 1 ==> |r| > |lines[0]| && r[|lines[0]|] == NewLine
  {
    if |lines| == 0 then []
    else if |lines| == 1 then lines[0]
    else lines[0] + [NewLine] + Join(lines[1..])
  }

  /** Joining the pieces of a split gives the text back. */
  lemma {:induction false} JoinSplit(s: string)
    ensures Join(Split(s)) == s
  {
    if s == [] {
    } else if s[0] == NewLine {
      JoinSplit(s[1..]);
      assert Split(s)[1..] == Split(s[1..]);
    } else {
      JoinSplit(s[1..]);
      var rest := Split(s[1..]);
      if |rest| > 1 {
        assert Split(s)[1..] == rest[1..];
        assert Join(rest) == rest[0] + [NewLine] + Join(rest[1..]);
        assert Join(Split(s)) == [s[0]] + rest[0] + [NewLine] + Join(rest[1..]);
      }
      assert s == [s[0]] + s[1..];
    }
  }

  /** A line without separator splits to itself. */
  lemma {:induction false} SplitLine(l: string)
    requires NewLine !in l
    ensures Split(l) == [l]
  {
    if l != [] {
      assert NewLine !in l[1..] by { assert forall k :: 0 <= k < |l[1..]| ==> l[1..][k] == l[k + 1]; }
      SplitLine(l[1..]);
      assert [l[0]] + l[1..] == l;
    }
  }

  /** A separator after a separator-free line starts a new piece. */
  lemma {:induction false} SplitAfterLine(l: string, rest: string)
    requires NewLine !in l
    ensures Split(l + [NewLine] + rest) == [l] + Split(rest)
  {
    var t := l + [NewLine] + rest;
    if l == [] {
      assert t == [NewLine] + rest;
      assert t[1..] == rest;
    } else {
      assert t[0] == l[0] && t[0] != NewLine;
      assert t[1..] == l[1..] + [NewLine] + rest;
      assert NewLine !in l[1..] by { assert forall k :: 0 <= k < |l[1..]| ==> l[1..][k] == l[k + 1]; }
      SplitAfterLine(l[1..], rest);
      var r := Split(t[1..]);
      assert r == [l[1..]] + Split(rest);
      assert r[0] == l[1..] && r[1..] == Split(rest);
      assert [l[0]] + l[1..] == l;
      assert Split(t) == [[l[0]] + r[0]] + r[1..];
    }
  }

  /** Splitting a join of separator-free lines gives the lines back. */
  lemma {:induction false} SplitJoin(lines: seq<string>)
    requires |lines| >= 1
    requires forall k :: 0 <= k < |lines| ==> NewLine !in lines[k]
    ensures Split(Join(lines)) == lines
  {
    if |lines| == 1 {
      SplitLine(lines[0]);
    } else {
      SplitJoin(lines[1..]);
      SplitAfterLine(lines[0], Join(lines[1..]));
      assert [lines[0]] + lines[1..] == lines;
    }
  }

  /** `a` can be obtained from `b` by deleting elements. */
  predicate IsSubsequence<T(==)>(a: seq<T>, b: seq<T>)
    decreases |b|
  {
    if a == [] then true
    else if b == [] then false
    else (a[0] == b[0] && IsSubsequence(a[1..], b[1..])) || IsSubsequence(a, b[1..])
  }

  /** A subsequence of a suffix is a subsequence of the whole. */
  lemma {:induction false} SubsequenceOfSuffix<T>(a: seq<T>, b: seq<T>, k: nat)
    requires k <= |b|
    requires IsSubsequence(a, b[k..])
    ensures IsSubsequence(a, b)
    decreases k
  {
    if k > 0 {
      assert b[1..][k - 1..] == b[k..];
      SubsequenceOfSuffix(a, b[1..], k - 1);
    }
  }

  /** A subsequence is never longer than the sequence it comes from. */
  lemma {:induction false} SubsequenceLength<T>(a: seq<T>, b: seq<T>)
    requires IsSubsequence(a, b)
    ensures |a| <= |b|
    decreases |b|
  {
    if a != [] {
      if a[0] == b[0] && IsSubsequence(a[1..], b[1..]) {
        SubsequenceLength(a[1..], b[1..]);
      } else {
        SubsequenceLength(a, b[1..]);
      }
    }
  }
}

=== FILE: whisper.dfy ===
/** The command line handed to the speech engine and the mapping of its
    outcome to a string (`WhisperWrapper.ExecuteCliCommandAsync` and the
    `WhisperArguments` record in TestTelegramBot/WhisperWrapper.cs). */
module Whisper {
  import opened Wrappers
  import Paths

  /** The `WhisperArguments` record. `language` and `initialPrompt` may be
      `null` in C#, hence `Option`. The two punctuation properties are never
      read (their use is commented out) and are not modelled. */
  datatype WhisperArguments = WhisperArguments(
    audioFileName: string,
    model: string,
    outputDirectory: string,
    outputFormat: string,
    language: Option<string>,
    initialPrompt: Option<string>)

  const ModelFlag: string := "--model"
  const OutputDirFlag: string := "--output_dir"
  const OutputFormatFlag: string := "--output_format"
  const LanguageFlag: string := "--language"
  const InitialPromptFlag: string := "--initial_prompt"

  /** `string.IsNullOrEmpty`. */
  predicate IsNullOrEmpty(s: Option<string>)
  {
    s.None? || s.value == []
  }

  /** The record's initialisers: model "small", an output directory "whisper"
      under the working directory `cwd`, format "txt", language "en" and an
      empty initial prompt. `AudioFileName` has no initialiser; it is set by
      the caller before every run. */
  function DefaultArguments(cwd: string, audioFileName: string): (w: WhisperArguments)
    ensures w.model == "small" && w.outputFormat == "txt"
    ensures w.language == Some("en") && w.initialPrompt == Some("")
    ensures w.outputDirectory == Paths.Combine(cwd, "whisper")
    ensures w.audioFileName == audioFileName
  {
    WhisperArguments(audioFileName, "small", Paths.Combine(cwd, "whisper"), "txt", Some("en"), Some(""))
  }

  /** The bot's shared arguments: the defaults with the language set to the
      empty string, so that the engine detects the language itself. */
  function BotArguments(cwd: string, audioFileName: string): (w: WhisperArguments)
    ensures w.language == Some("") && IsNullOrEmpty(w.language)
    ensures w.model == "small" && w.outputFormat == "txt" && w.initialPrompt == Some("")
    ensures w.outputDirectory == Paths.Combine(cwd, "whisper")
    ensures w.audioFileName == audioFileName
  {
    DefaultArguments(cwd, audioFileName).(language := Some(""))
  }

  /** The flag names of a token list after the positional audio path: the
      tokens at odd positions. */
  function FlagNames(tokens: seq<string>): seq<string>
    decreases |tokens|
  {
    if |tokens| < 3 then [] else [tokens[1]] + FlagNames(tokens[2..])
  }

  /** Appending a flag/value pair to a well-formed token list (the audio path
      followed by whole pairs) appends the flag to its flag names. */
  lemma {:induction false} FlagNamesAppendPair(tokens: seq<string>, flag: string, value: string)
    requires |tokens| % 2 == 1
    ensures FlagNames(tokens + [flag, value]) == FlagNames(tokens) + [flag]
    decreases |tokens|
  {
    if |tokens| >= 3 {
      assert (tokens + [flag, value])[2..] == tokens[2..] + [flag, value];
      FlagNamesAppendPair(tokens[2..], flag, value);
    } else {
      assert (tokens + [flag, value])[2..] == [value];
    }
  }

  /** Appending a pair makes its flag readable, unless the flag was already
      present, whose first value still wins. */
  lemma {:induction false} FlagValueAppendPair(tokens: seq<string>, flag: string, value: string, g: string)
    requires |tokens| % 2 == 1
    ensures FlagValue(tokens + [flag, value], g) ==
            if g in FlagNames(tokens) then FlagValue(tokens, g)
            else if g == flag then Some(value) else None
    decreases |tokens|
  {
    if |tokens| >= 3 {
      assert (tokens + [flag, value])[2..] == tokens[2..] + [flag, value];
      FlagValueAppendPair(tokens[2..], flag, value, g);
    } else {
      assert (tokens + [flag, value])[2..] == [value];
    }
  }

  /** Appends `flag` and the value of `v` as one pair when `v` is neither null
      nor empty, as the callback does for the two optional arguments. */
  function AppendOptional(tokens: seq<string>, flag: string, v: Option<string>): (r: seq<string>)
    requires |tokens| % 2 == 1
    ensures |r| % 2 == 1 && |r| == |tokens| + (if IsNullOrEmpty(v) then 0 else 2)
    ensures r[..|tokens|] == tokens
    ensures !IsNullOrEmpty(v) ==> r[|tokens|..] == [flag, v.value]
    ensures FlagNames(r) == FlagNames(tokens) + (if IsNullOrEmpty(v) then [] else [flag])
  {
    if IsNullOrEmpty(v) then tokens
    else
      FlagNamesAppendPair(tokens, flag, v.value);
      tokens + [flag, v.value]
  }

  /** The argument list built by the `WithArguments` callback: the audio path,
      three mandatory flag/value pairs, then `--language` only for a non-empty
      language and `--initial_prompt` only for a non-empty prompt, each value
      a single token. */
  function BuildArguments(w: WhisperArguments): (tokens: seq<string>)
    ensures |tokens| == 7 || |tokens| == 9 || |tokens| == 11
    ensures tokens[..7] == [w.audioFileName, ModelFlag, w.model, OutputDirFlag, w.outputDirectory,
                            OutputFormatFlag, w.outputFormat]
    ensures FlagNames(tokens) == [ModelFlag, OutputDirFlag, OutputFormatFlag]
                                 + (if IsNullOrEmpty(w.language) then [] else [LanguageFlag])
                                 + (if IsNullOrEmpty(w.initialPrompt) then [] else [InitialPromptFlag])
  {
    var base := [w.audioFileName, ModelFlag, w.model, OutputDirFlag, w.outputDirectory,
                 OutputFormatFlag, w.outputFormat];
    BaseFlagNames(w.audioFileName, w.model, w.outputDirectory, w.outputFormat);
    AppendOptional(AppendOptional(base, LanguageFlag, w.language), InitialPromptFlag, w.initialPrompt)
  }

  /** The three mandatory pairs, in order. */
  lemma BaseFlagNames(audio: string, model: string, dir: string, format: string)
    ensures FlagNames([audio, ModelFlag, model, OutputDirFlag, dir, OutputFormatFlag, format])
            == [ModelFlag, OutputDirFlag, OutputFormatFlag]
  {
    var t := [audio, ModelFlag, model, OutputDirFlag, dir, OutputFormatFlag, format];
    assert t[2..] == [model, OutputDirFlag, dir, OutputFormatFlag, format];
    assert t[2..][2..] == [dir, OutputFormatFlag, format];
    assert t[2..][2..][2..] == [format];
    assert FlagNames(t[2..][2..]) == [OutputFormatFlag];
    assert FlagNames(t[2..]) == [OutputDirFlag, OutputFormatFlag];
  }

  /** No flag name occurs twice in flag position. */
  predicate DistinctFlags(tokens: seq<string>)
  {
    var flags := FlagNames(tokens);
    forall i, j :: 0 <= i < j < |flags| ==> flags[i] != flags[j]
  }

  /** A positional reading of a token list: after the audio path the tokens
      alternate flag and value, and this is the value after the first
      occurrence of `flag` in flag position, if any. (The engine's own option
      parser is not modelled; it may read differently a value that looks like
      an option.) */
  function FlagValue(tokens: seq<string>, flag: string): (v: Option<string>)
    ensures v.None? <==> flag !in FlagNames(tokens)
    decreases |tokens|
  {
    if |tokens| < 3 then None
    else if tokens[1] == flag then Some(tokens[2])
    else FlagValue(tokens[2..], flag)
  }

  /** What a token list asks the engine to do, read positionally. */
  datatype Invocation = Invocation(
    audioFile: string,
    model: string,
    outputDirectory: string,
    outputFormat: string,
    language: Option<string>,
    initialPrompt: Option<string>)

  /** Reads an argument list back positionally; `None` when a mandatory
      option is missing. */
  function ReadArguments(tokens: seq<string>): Option<Invocation>
  {
    if tokens == [] then None
    else
      match (FlagValue(tokens, ModelFlag), FlagValue(tokens, OutputDirFlag), FlagValue(tokens, OutputFormatFlag))
      case (Some(m), Some(d), Some(f)) =>
        Some(Invocation(tokens[0], m, d, f, FlagValue(tokens, LanguageFlag), FlagValue(tokens, InitialPromptFlag)))
      case _ => None
  }

  /** An optional argument as the command line carries it: null and empty
      are both absent. */
  function Effective(s: Option<string>): (e: Option<string>)
    ensures e.None? <==> IsNullOrEmpty(s)
  {
    if IsNullOrEmpty(s) then None else s
  }

  /** Every flag is emitted at most once. */
  lemma BuildArgumentsHasDistinctFlags(w: WhisperArguments)
    ensures DistinctFlags(BuildArguments(w))
  {
  }

  /** Reading the list back positionally gives exactly the arguments it was
      built from, with a null or empty language or prompt read as absent. */
  lemma {:induction false} ReadBuildRoundTrip(w: WhisperArguments)
    ensures ReadArguments(BuildArguments(w)) ==
            Some(Invocation(w.audioFileName, w.model, w.outputDirectory, w.outputFormat,
                            Effective(w.language), Effective(w.initialPrompt)))
  {
    var base := [w.audioFileName, ModelFlag, w.model, OutputDirFlag, w.outputDirectory,
                 OutputFormatFlag, w.outputFormat];
    var withLanguage := if IsNullOrEmpty(w.language) then base else base + [LanguageFlag, w.language.value];
    var t := BuildArguments(w);
    BaseFlagNames(w.audioFileName, w.model, w.outputDirectory, w.outputFormat);
    assert base[2..] == [w.model, OutputDirFlag, w.outputDirectory, OutputFormatFlag, w.outputFormat];
    assert base[2..][2..] == [w.outputDirectory, OutputFormatFlag, w.outputFormat];
    assert base[2..][2..][2..] == [w.outputFormat];
    forall g | g in [ModelFlag, OutputDirFlag, OutputFormatFlag, LanguageFlag, InitialPromptFlag]
      ensures FlagValue(t, g) == BaseValue(w, g)
    {
      assert FlagValue(base[2..][2..], g) == if g == OutputFormatFlag then Some(w.outputFormat) else None;
      assert FlagValue(base[2..], g) == if g == OutputDirFlag then Some(w.outputDirectory) else FlagValue(base[2..][2..], g);
      if !IsNullOrEmpty(w.language) {
        FlagValueAppendPair(base, LanguageFlag, w.language.value, g);
        FlagNamesAppendPair(base, LanguageFlag, w.language.value);
      }
      if !IsNullOrEmpty(w.initialPrompt) {
        FlagValueAppendPair(withLanguage, InitialPromptFlag, w.initialPrompt.value, g);
      }
    }
  }

  /** The value a positional reading should give for each flag of `w`. */
  function BaseValue(w: WhisperArguments, g: string): Option<string>
  {
    if g == ModelFlag then Some(w.model)
    else if g == OutputDirFlag then Some(w.outputDirectory)
    else if g == OutputFormatFlag then Some(w.outputFormat)
    else if g == LanguageFlag then Effective(w.language)
    else if g == InitialPromptFlag then Effective(w.initialPrompt)
    else None
  }

  /** The bot's invocation has no `--language` pair and exactly seven tokens. */
  lemma BotInvocationHasSevenTokens(cwd: string, audioFileName: string)
    ensures |BuildArguments(BotArguments(cwd, audioFileName))| == 7
    ensures LanguageFlag !in FlagNames(BuildArguments(BotArguments(cwd, audioFileName)))
  {
  }

  /** The outcome of running the engine: it exited with a code and a captured
      standard output, or starting/awaiting it threw. */
  datatype ProcessOutcome = Exited(exitCode: int, standardOutput: string) | Threw(message: string)

  /** What `ExecuteCliCommandAsync` returns: the standard output after a zero
      exit code, the empty string after any other exit code or an exception. */
  function CommandResult(o: ProcessOutcome): (r: string)
    ensures o.Exited? && o.exitCode == 0 ==> r == o.standardOutput
    ensures r != [] ==> o.Exited? && o.exitCode == 0
  {
    match o
    case Exited(code, out) => if code == 0 then out else []
    case Threw(_) => []
  }
}

=== FILE: wrappers.dfy ===
/** Two plain datatypes used across the model: `Option`, an optional value
    standing for a nullable C# reference, and `Result`, a value or the
    exception a call raised. */
module Wrappers {

  /** A value that may be absent (a C# `null`). */
  datatype Option<+T> = None | Some(value: T)

  /** Either a value or the exception a call raised. */
  datatype Result<+R, +E> = Success(value: R) | Failure(error: E)
}
